=== FILE: README.md ===
# Migrant portal front-end: navigation decisions and page state

This project models the decision logic of the migrant-verification portal's
web front-end and proves properties of it in Dafny. The portal's pages are
React components that talk to a REST backend. The backend is not part of this
model. What the front-end itself decides is:

- **The migrant access guard** (`MigrantProtectedRoute`). It reads the cached
  `"user"` profile from local storage and the requested pathname. It then
  renders the page or redirects to migrant sign-in, `/home` or
  `/select-agency`. It raises an alert when a migrant asks for `/verify`.
- **The department access guard** (`DepartmentProtectedRoute`). It admits a
  subject only when both `deptToken` and `departmentName` are truthy.
- **The route table** of the composition root. It maps exact paths to pages,
  wraps four migrant pages in the migrant guard, and falls back to the
  not-found page.
- **The government dashboard's bookkeeping.** Aggregate counts (`updateStats`)
  come from the unfiltered roster and the display list from a filtered fetch.
  The page also handles mount, fetch responses, verify/reject actions and
  logout.
- **The agency-selection page.** It has a single-slot expand/collapse toggle,
  a select → confirm/cancel dialog, load and submit outcomes, and a selector
  that chooses between spinner, list and empty state.

Local storage is a `map<string, string>`, read with JavaScript truthiness:
`null` and `""` both count as missing. Each HTTP request is an *effect* the
page emits. Each response comes back as an *event* carrying `Ok(body)` or
`Failed`. Every page is a state record with pure transition functions. `Run`
folds any sequence of events over a state, in any order. So the invariants
proved about `Run` cover every order in which the GET responses can arrive.
The replies to the dashboard's PUT and to the selection page's POST are the
exception: each is folded into the click that sent it (see "Left out").

Files and modules: `wrappers.dfy` (`Option`, `Response`), `storage.dfy`,
`navigation.dfy` (`Decision`), `migrant_guard.dfy`, `department_guard.dfy`,
`routes.dfy`, `gov_dashboard.dfy`, `select_agency.dfy`.

The guards and the route table each spell out their own path strings, as the
source files do. So the cross-file lemmas (every redirect target is a declared
route, and no guarded redirect loops) genuinely compare the two files.

An agency-verified migrant is also let onto `/select-agency`, through the
final `return children` at line 54 of `migrantUserPR.jsx`;
`MigrantGuard.VerifiedMigrant` states this.

## Model

| member | source | states |
|---|---|---|
| Storage.GetItem | Migrant/src/components/protectedRoutes/DepartmentPR.jsx:6-7 | A read yields a value exactly when the key is stored, and then it is the stored string; otherwise it yields `null`. |
| Storage.TruthyEntry | Migrant/src/components/protectedRoutes/DepartmentPR.jsx:9-9 | A read is truthy exactly when the key is stored with a non-empty value. A key just removed reads as falsy. |
| Storage.RemoveItem | Migrant/src/pages/GovDashboard.jsx:106-106 | The key is gone afterwards. Every other entry is kept with its value, and no key is added. |
| MigrantGuard.Guard | Migrant/src/components/protectedRoutes/migrantUserPR.jsx:8-54 | Allows exactly when the independent policy `Admits` holds. A refused subject goes to `RefusalTarget`, which is always one of `/signin/migrant`, `/home`, `/select-agency`, and the requested path is kept as `from`. The alert fires exactly for a migrant asking for `/verify`. |
| MigrantGuard.NoUserGoesToSignIn | Migrant/src/components/protectedRoutes/migrantUserPR.jsx:16-19 | With no stored user, every path redirects to `/signin/migrant` and carries the original path. |
| MigrantGuard.NonMigrantOnlyOnVerify | Migrant/src/components/protectedRoutes/migrantUserPR.jsx:25-31 | A non-migrant is allowed on `/verify` and redirected to `/home` from every other path. |
| MigrantGuard.MigrantOnVerifyGoesHome | Migrant/src/components/protectedRoutes/migrantUserPR.jsx:33-37 | A migrant asking for `/verify` is notified and sent to `/home`. Flipping `agencyVerified` does not change the outcome. |
| MigrantGuard.PendingMigrant | Migrant/src/components/protectedRoutes/migrantUserPR.jsx:39-51 | A migrant who is not agency-verified is sent from `/submit-complaint` and `/user-complaints` to `/select-agency`, and is allowed on `/select-agency`. |
| MigrantGuard.VerifiedMigrant | Migrant/src/components/protectedRoutes/migrantUserPR.jsx:39-54 | An agency-verified migrant is allowed on every path except `/verify`. |
| MigrantGuard.SelectAgencyTargetSettles | Migrant/src/components/protectedRoutes/migrantUserPR.jsx:40-50 | When the guard redirects to `/select-agency`, the same user is allowed there, so there is no loop through that target. |
| MigrantGuard.RedirectLeavesGuardedPath | Migrant/src/components/protectedRoutes/migrantUserPR.jsx:17-50 | On the four guarded paths, a redirect target never equals the requested path. |
| MigrantGuard.PathVariantsNotProtected | Migrant/src/components/protectedRoutes/migrantUserPR.jsx:22-54 | The guard compares the pathname exactly: `/submit-complaint/` and `/Submit-Complaint` are not treated as protected, and a pending migrant is allowed on them. |
| DepartmentGuard.Guard | Migrant/src/components/protectedRoutes/DepartmentPR.jsx:6-16 | Allows if and only if both `deptToken` and `departmentName` are stored and non-empty. Otherwise it redirects to `/signin/department` with the requested path as `from`. |
| DepartmentGuard.EmptyIsAbsent | Migrant/src/components/protectedRoutes/DepartmentPR.jsx:9-9 | Storing `""` under either key gives the same decision as removing that key. |
| DepartmentGuard.DecisionIgnoresPath | Migrant/src/components/protectedRoutes/DepartmentPR.jsx:5-13 | Whether the subject is admitted does not depend on the path. Two redirects differ only in `from`. |
| Routes.Lookup | Migrant/src/main.jsx:27-81 | A found entry belongs to the table and has exactly the requested path. Nothing is found exactly when no entry has that path. |
| Routes.LookupFinds | Migrant/src/main.jsx:27-81 | In a table without repeated paths, looking up an entry's path returns that entry. |
| Routes.ResolveIn | Migrant/src/main.jsx:27-81 | A declared path resolves to its own entry, and any other path resolves to the catch-all not-found route. |
| Routes.Resolve | Migrant/src/main.jsx:27-81 | The rendered page is the not-found page exactly when the path is not declared. A declared path renders an entry with that path. |
| Routes.PathsDistinct | Migrant/src/main.jsx:28-78 | No two declared routes share a path. |
| Routes.ResolveEntry | Migrant/src/main.jsx:28-78 | Every declared path renders its own table entry. |
| Routes.GuardedRoutes | Migrant/src/main.jsx:31-62 | A path is wrapped in the migrant guard exactly when it is one of `/select-agency`, `/verify`, `/submit-complaint`, `/user-complaints`. |
| Routes.DashboardsUnguarded | Migrant/src/main.jsx:76-78 | The agency, department and government dashboards each render without any guard. |
| Routes.TargetsDeclared | Migrant/src/main.jsx:28-67 | Every migrant-guard target is a declared route, and so is every redirect target of the department guard. |
| Routes.TargetsUnguarded | Migrant/src/main.jsx:28-67 | `/home`, `/signin/migrant` and `/signin/department` are not guarded. |
| Routes.VisitPath | Migrant/src/main.jsx:31-62 | An unguarded route always renders its page. A guarded route renders exactly when the migrant policy `Admits` holds, and otherwise bounces to the guard's refusal target, carrying the requested path. |
| Routes.TargetRenders | Migrant/src/main.jsx:28-65 | Each migrant-guard target renders a real page for the user, given that agency selection admits them when it is the target. |
| Routes.NoRedirectLoop | Migrant/src/main.jsx:31-65 | A guarded path whose guard refuses bounces. The target then renders a page other than not-found in one hop, and it differs from the requested path. |
| Routes.PendingMigrantNeverComplains | Migrant/src/main.jsx:47-62 | A migrant whose agency verification is pending, navigating to `/submit-complaint` or `/user-complaints`, bounces to `/select-agency` instead of seeing the page. |
| GovDashboard.WithStatus | Migrant/src/pages/GovDashboard.jsx:68-69 | The filtered list contains exactly the roster's agencies with the requested flag, and it is no longer than the roster. |
| GovDashboard.Partition | Migrant/src/pages/GovDashboard.jsx:67-69 | As multisets, the verified list and the pending list together are exactly the roster. |
| GovDashboard.UpdateStats | Migrant/src/pages/GovDashboard.jsx:65-71 | `total` is the roster length, `verified` and `pending` are the sizes of the two filters, and `verified + pending == total`. |
| GovDashboard.StatusChangeCounts | Migrant/src/pages/GovDashboard.jsx:65-71 | Changing one agency's flag keeps `total` and moves that agency from one count to the other. |
| GovDashboard.Init | Migrant/src/pages/GovDashboard.jsx:11-17 | The page starts with stats `{0,0,0}`, filter `"unverified"`, an empty search and `loading` on, and this state is consistent. |
| GovDashboard.FetchAgencies | Migrant/src/pages/GovDashboard.jsx:49-57 | Issuing the filtered fetch turns `loading` on and changes nothing else. It sends one request with the stored token, the current filter and the search term. |
| GovDashboard.RefreshBoth | Migrant/src/pages/GovDashboard.jsx:81-83 | Issues exactly the unfiltered fetch and then the filtered fetch, both with the stored `govToken`, the second with the current filter and search term. The only state change is turning `loading` on. |
| GovDashboard.OnMount | Migrant/src/pages/GovDashboard.jsx:20-31 | Without a truthy `govToken`, the page only navigates to `/signin/government` and issues no fetch. With a token, it issues exactly the unfiltered fetch and then the filtered fetch with the current filter and search term; the only state change is turning `loading` on. |
| GovDashboard.OnAllFetched | Migrant/src/pages/GovDashboard.jsx:34-46 | On success, the roster is stored, the counts are recomputed from it, nothing else changes, and the state becomes consistent. On failure, the state, including the stats, is unchanged. |
| GovDashboard.OnFilteredFetched | Migrant/src/pages/GovDashboard.jsx:49-63 | `loading` is off after either outcome. The display list is replaced only on success. No other field changes. |
| GovDashboard.OnAction | Migrant/src/pages/GovDashboard.jsx:73-103 | The PUT for the agency, with the stored token, is always sent first. On success it is followed by exactly the two refetches with the stored token, current filter and search term, and the only state change is turning `loading` on. On failure nothing else happens. |
| GovDashboard.OnLogout | Migrant/src/pages/GovDashboard.jsx:105-108 | Removes `govToken`, keeps every other storage entry, leaves the rest of the state alone, and navigates to `/signin/government`. |
| GovDashboard.Next | Migrant/src/pages/GovDashboard.jsx:20-108 | Stats change only when an unfiltered roster arrives, and then they are computed from that roster. Every event preserves consistency. |
| GovDashboard.RunConsistent | Migrant/src/pages/GovDashboard.jsx:41-42 | Any sequence of events keeps the stats equal to `updateStats` of the unfiltered roster. |
| GovDashboard.Reachable | Migrant/src/pages/GovDashboard.jsx:13-71 | Every state reachable from the initial one is consistent. |
| GovDashboard.VerifyThenRefetch | Migrant/src/pages/GovDashboard.jsx:73-83 | After a successful verify of a pending agency and both refetches, there is one more verified agency, one fewer pending agency, the same total, the new list on display and no spinner. |
| SelectAgency.Init | Migrant/src/pages/SelectAgency.jsx:22-29 | The page starts loading, with no error, no selection, the dialog closed, no expanded card and no user. |
| SelectAgency.Toggle | Migrant/src/pages/SelectAgency.jsx:31-33 | The slot becomes empty exactly when the clicked card was the open one. Otherwise it holds the clicked id. |
| SelectAgency.ToggleTwice | Migrant/src/pages/SelectAgency.jsx:31-33 | Clicking the same card twice, starting from an empty slot or from that card open, restores the slot. |
| SelectAgency.ToggleTwiceFromOther | Migrant/src/pages/SelectAgency.jsx:31-33 | When another card was open, two clicks on a card leave the slot empty. |
| SelectAgency.AtMostOneExpanded | Migrant/src/pages/SelectAgency.jsx:204-219 | With distinct agency ids, at most one card is expanded. |
| SelectAgency.OnMount | Migrant/src/pages/SelectAgency.jsx:35-71 | Without a truthy `token`, the user fetch is replaced by navigation to `/signin/migrant`. The agency fetch always starts. The only state change is turning the spinner on. |
| SelectAgency.OnUserFetched | Migrant/src/pages/SelectAgency.jsx:36-48 | On success, the profile is kept and nothing else changes. A failed user fetch navigates to `/signin/migrant` and changes nothing else. |
| SelectAgency.OnAgenciesFetched | Migrant/src/pages/SelectAgency.jsx:55-68 | `isLoading` is off after either outcome. Success installs the list. Failure sets the load error and keeps the old list. No other field changes. |
| SelectAgency.OnSelect | Migrant/src/pages/SelectAgency.jsx:73-76 | Selecting an agency records it and opens the dialog. The list, expansion slot, error, loading flag, user and storage are unchanged. |
| SelectAgency.OnCancel | Migrant/src/pages/SelectAgency.jsx:363-364 | Cancel or close shuts the dialog and leaves the selection untouched. |
| SelectAgency.OnConfirm | Migrant/src/pages/SelectAgency.jsx:78-98 | The request names the stored `userId` and the selected agency. Success only closes the dialog, and navigates to `/home` with a message naming the agency. Failure only sets the send error, leaving the dialog as it was, and does not navigate. With nothing selected, it fails without a request. |
| SelectAgency.ViewOf | Migrant/src/pages/SelectAgency.jsx:154-332 | Spinner exactly while loading. The card list exactly when loaded and non-empty. The empty notice exactly when loaded and empty. |
| SelectAgency.Next | Migrant/src/pages/SelectAgency.jsx:31-98 | Every event keeps "dialog open implies an agency is selected". Only selecting changes the selection. A card click changes only the expansion slot. |
| SelectAgency.RunWellFormed | Migrant/src/pages/SelectAgency.jsx:73-98 | Any sequence of events keeps "dialog open implies an agency is selected". |
| SelectAgency.ReachableDialog | Migrant/src/pages/SelectAgency.jsx:337-337 | In every reachable state, the dialog flag is on exactly when the dialog is shown, and confirming from an open dialog always sends the request. |
| SelectAgency.FailedLoadIsVisible | Migrant/src/pages/SelectAgency.jsx:143-177 | A failed agency load shows the error banner and leaves the spinner off. |

## Left out

- Parsing the `"user"` entry with `JSON.parse`, and its exception on malformed text, are not modelled. The guard receives the parsed profile as `Option<User>`, and an absent entry is `None`.
- The location object is reduced to its pathname. Search, hash and router state are not carried in `from`.
- The migrant guard's `alert` presentation is not modelled. Only the `notified` flag on the `/verify` redirect remains.
- React Router's matching rules are not modelled: by default the library matches paths case-insensitively and tolerates a trailing slash, while routes here match by exact string equality. Because the guard compares `location.pathname` exactly (`migrantUserPR.jsx` lines 22, 27 and 34), such a variant would render a guarded page without the guard recognising it: `MigrantGuard.PathVariantsNotProtected` shows that a pending migrant is allowed on `/submit-complaint/`. `Routes.GuardedRoutes`, `Routes.PendingMigrantNeverComplains` and `MigrantGuard.PendingMigrant` therefore hold only for the exact spellings of the paths; they are not guarantees about every URL the router accepts.
- HTTP requests are not modelled: hosts, headers other than the token value, request bodies and status codes. Requests are effects and responses are `Ok`/`Failed` events.
- The outcome of a verify/reject PUT is folded into the `Verify`/`Reject` event, as a deliberate abstraction. The refetch it issues therefore uses the filter and search term of the moment of the click, which are the values the handler's closure captured in the source. What is lost is interleaving: while the PUT is in flight, the setters, `fetchAgencies` and other fetch responses can still run in the source, and the model does not place any event between a PUT and its reply.
- SelectAgency.OnConfirm: the POST's outcome is a flag on the `Confirm` click, not a reply event of its own. The source awaits that reply, and while it is in flight the dialog stays open. A second click on Confirm can then send a second request, and Cancel, Select or a fetch response can run before the first reply lands. The model places nothing between the click and its reply, so those interleavings are not covered: a reply that arrives after Cancel still navigates home in the source, with the agency captured at the click.
- React's effect scheduling, state batching and stale closures are not modelled. Events apply to the latest state, one at a time.
- The query string of the filtered fetch (`GovDashboard.jsx` line 54) is built without escaping. The model passes the raw filter and search values in the effect and does not model that encoding.
- `console.error` logging is left out, as is the dashboard's `department` slot, which is always `null` and only passed to a header component.
- Presentation is left out: animations, Tailwind classes, icons, the footer's year, agency detail fallbacks ("Not provided"), the current-agency banner (`SelectAgency.jsx` lines 123-138) and the profile passed to the header.
- The `AgencySection` and `StatisticsSection` components are not part of this model. Their calls to the search/filter setters and to `fetchAgencies` are modelled as the `SearchChanged`, `StatusChanged` and `RefreshRequested` events, at whatever point they occur.
- `Migrant/src/components/agency/Header.jsx` is not part of this model. It is purely presentational: a dropdown flag, a profile-modal flag and display fallbacks.
- `DepartmentProtectedRoute` is not mounted by the composition root. It is modelled on its own, and nothing in the route table refers to it.
- The pages that the route table names but whose code is not shown (sign-in, sign-up, home, complaints, the other dashboards) are not part of this model.
- Routes.Lookup: does not state that the entry found is the first match. That matters only for tables with repeated paths, and `Routes.PathsDistinct` shows the declared table has none.

=== FILE: department_guard.dfy ===
/** The department access guard (`DepartmentProtectedRoute`): a binary check
    of two storage entries. The composition root never mounts it; it is
    modelled on its own. */
module DepartmentGuard {
  import opened Wrappers
  import opened Storage
  import opened Navigation

  const TokenKey := "deptToken"
  const NameKey := "departmentName"

  /** The guard: either entry falsy (absent or empty) sends the subject to the
      department sign-in page with the requested path as `from`. */
  function Guard(store: Store, path: string): (d: Decision)
    ensures d.Allow? <==>
      (TokenKey in store && store[TokenKey] != "" && NameKey in store && store[NameKey] != "")
    ensures d.Redirect? ==> d == Redirect("/signin/department", path, false)
  {
    var token := GetItem(store, TokenKey);
    var departmentName := GetItem(store, NameKey);
    if !Truthy(token) || !Truthy(departmentName) then
      Redirect("/signin/department", path, false)
    else
      Allow
  }

  /** Storing an empty string under either key is the same as not storing it. */
  lemma EmptyIsAbsent(store: Store, key: string, path: string)
    requires key == TokenKey || key == NameKey
    ensures Guard(store[key := ""], path) == Guard(RemoveItem(store, key), path)
  {
  }

  /** Whether the subject is admitted does not depend on the path; the path is
      only forwarded as `from`. */
  lemma DecisionIgnoresPath(store: Store, p: string, q: string)
    ensures Guard(store, p).Allow? <==> Guard(store, q).Allow?
    ensures Guard(store, p).Redirect? ==> Guard(store, q) == Guard(store, p).(from := q)
  {
  }
}

=== FILE: gov_dashboard.dfy ===
/** The government dashboard's page state: aggregate counts computed from
    the unfiltered agency roster, a filtered list for display, and the
    transitions driven by mounting, fetch responses, verify/reject actions
    and logout. HTTP requests appear as effects the page issues; their
    responses come back as events. */
module GovDashboard {
  import opened Wrappers
  import opened Storage

  /** An agency as the roster endpoint returns it, reduced to what the page
      decides on. */
  datatype Agency = Agency(id: string, isVerified: bool)

  datatype Stats = Stats(total: nat, verified: nat, pending: nat)

  /** The agencies of `xs` whose verification flag equals `verified`, in order
      (`agencies.filter(a => a.isVerified)` and its negation). */
  function WithStatus(xs: seq<Agency>, verified: bool): (r: seq<Agency>)
    ensures |r| <= |xs|
    ensures forall a :: a in r ==> a in xs && a.isVerified == verified
    ensures forall a :: a in xs && a.isVerified == verified ==> a in r
  {
    if |xs| == 0 then []
    else
      var rest := WithStatus(xs[1..], verified);
      assert forall a :: a in xs ==> a == xs[0] || a in xs[1..];
      if xs[0].isVerified == verified then [xs[0]] + rest else rest
  }

  /** The verified and the pending agencies together are exactly the roster:
      every agency lands in one of the two lists, and none is invented. */
  lemma {:induction false} Partition(xs: seq<Agency>)
    ensures multiset(WithStatus(xs, true)) + multiset(WithStatus(xs, false)) == multiset(xs)
  {
    if |xs| > 0 {
      Partition(xs[1..]);
      var head := multiset{xs[0]};
      assert xs == [xs[0]] + xs[1..];
      assert multiset(xs) == head + multiset(xs[1..]);
      if xs[0].isVerified {
        assert multiset(WithStatus(xs, true)) == head + multiset(WithStatus(xs[1..], true));
      } else {
        assert multiset(WithStatus(xs, false)) == head + multiset(WithStatus(xs[1..], false));
      }
    }
  }

  /** `updateStats`: the counts shown in the statistics section. */
  function UpdateStats(xs: seq<Agency>): (s: Stats)
    ensures s.total == |xs|
    ensures s.verified + s.pending == s.total
    ensures s.verified == |WithStatus(xs, true)| && s.pending == |WithStatus(xs, false)|
  {
    Partition(xs);
    assert |multiset(WithStatus(xs, true))| == |WithStatus(xs, true)|;
    assert |multiset(WithStatus(xs, false))| == |WithStatus(xs, false)|;
    assert |multiset(xs)| == |xs|;
    Stats(|xs|, |WithStatus(xs, true)|, |WithStatus(xs, false)|)
  }

  /** Changing one agency's flag moves it between the two counts and leaves
      the total alone. */
  lemma {:induction false} StatusChangeCounts(xs: seq<Agency>, i: nat, verified: bool)
    requires i < |xs|
    ensures var before := UpdateStats(xs);
            var after := UpdateStats(xs[i := xs[i].(isVerified := verified)]);
            && after.total == before.total
            && after.verified + (if xs[i].isVerified then 1 else 0)
               == before.verified + (if verified then 1 else 0)
  {
    var ys := xs[i := xs[i].(isVerified := verified)];
    if i == 0 {
      assert ys[1..] == xs[1..];
    } else {
      assert ys[0] == xs[0];
      assert ys[1..] == xs[1..][i - 1 := xs[i].(isVerified := verified)];
      StatusChangeCounts(xs[1..], i - 1, verified);
    }
  }

  const TokenKey := "govToken"
  const SignIn := "/signin/government"

  /** The page's state slots, plus the localStorage it reads and clears. */
  datatype DashState = DashState(
    store: Store,
    allAgencies: seq<Agency>,
    agencies: seq<Agency>,
    loading: bool,
    searchTerm: string,
    statusFilter: string,
    stats: Stats)

  /** What the page asks of the outside world. Each request carries the
      `x-auth-token` value read from storage at the moment it is issued. */
  datatype Effect =
    | NavigateTo(path: string)
    | FetchAll(token: Option<string>)
    | FetchFiltered(token: Option<string>, status: string, search: string)
    | UpdateAgency(token: Option<string>, id: string, action: string)

  datatype Transition = Transition(state: DashState, effects: seq<Effect>)

  /** The counts agree with the unfiltered roster the page holds. */
  predicate Consistent(s: DashState)
  {
    s.stats == UpdateStats(s.allAgencies)
  }

  /** The state on first render. */
  function Init(store: Store): (s: DashState)
    ensures s.stats == Stats(0, 0, 0) && Consistent(s)
    ensures s.statusFilter == "unverified" && s.searchTerm == "" && s.loading
    ensures s.store == store
  {
    DashState(store, [], [], true, "", "unverified", Stats(0, 0, 0))
  }

  /** `fetchAgencies` up to its request: the spinner goes on and the filtered
      request goes out with the current filter and search term. */
  function FetchAgencies(s: DashState): (t: Transition)
    ensures t.state == s.(loading := true)
    ensures t.effects == [FetchFiltered(GetItem(s.store, TokenKey), s.statusFilter, s.searchTerm)]
  {
    Transition(s.(loading := true),
      [FetchFiltered(GetItem(s.store, TokenKey), s.statusFilter, s.searchTerm)])
  }

  /** Both refetches, unfiltered first, as mount and every successful action
      issue them. */
  function RefreshBoth(s: DashState): (t: Transition)
    ensures t.state == s.(loading := true)
    ensures t.effects == [FetchAll(GetItem(s.store, TokenKey)),
                          FetchFiltered(GetItem(s.store, TokenKey), s.statusFilter, s.searchTerm)]
  {
    var f := FetchAgencies(s);
    Transition(f.state, [FetchAll(GetItem(s.store, TokenKey))] + f.effects)
  }

  /** The mount effect: without a truthy `govToken` the page goes to the
      government sign-in and requests nothing. */
  function OnMount(s: DashState): (t: Transition)
    ensures !Truthy(GetItem(s.store, TokenKey)) ==> t == Transition(s, [NavigateTo(SignIn)])
    ensures Truthy(GetItem(s.store, TokenKey)) ==> t.state == s.(loading := true)
    ensures Truthy(GetItem(s.store, TokenKey)) ==>
      t.effects == [FetchAll(GetItem(s.store, TokenKey)),
                    FetchFiltered(GetItem(s.store, TokenKey), s.statusFilter, s.searchTerm)]
    ensures t.state.stats == s.stats && t.state.allAgencies == s.allAgencies
  {
    if !Truthy(GetItem(s.store, TokenKey)) then Transition(s, [NavigateTo(SignIn)])
    else RefreshBoth(s)
  }

  /** The response to the unfiltered fetch: on success the roster is stored
      and the counts recomputed from it; a failure changes nothing. */
  function OnAllFetched(s: DashState, res: Response<seq<Agency>>): (t: Transition)
    ensures res.Failed? ==> t.state == s
    ensures res.Ok? ==> t.state == s.(allAgencies := res.body, stats := UpdateStats(res.body))
    ensures Consistent(t.state) <==> (res.Ok? || Consistent(s))
    ensures t.effects == []
  {
    match res
    case Ok(list) => Transition(s.(allAgencies := list, stats := UpdateStats(list)), [])
    case Failed => Transition(s, [])
  }

  /** The response to the filtered fetch: the display list is replaced on
      success, the spinner goes off either way, and the counts are untouched. */
  function OnFilteredFetched(s: DashState, res: Response<seq<Agency>>): (t: Transition)
    ensures t.state == s.(agencies := if res.Ok? then res.body else s.agencies, loading := false)
    ensures t.effects == []
  {
    match res
    case Ok(list) => Transition(s.(agencies := list, loading := false), [])
    case Failed => Transition(s.(loading := false), [])
  }

  /** `handleVerify` / `handleReject`: the PUT goes out; only when it
      succeeds are both lists refetched. */
  function OnAction(s: DashState, id: string, action: string, ok: bool): (t: Transition)
    ensures |t.effects| >= 1 && t.effects[0] == UpdateAgency(GetItem(s.store, TokenKey), id, action)
    ensures ok ==> t.state == s.(loading := true)
    ensures ok ==> t.effects[1..] == [FetchAll(GetItem(s.store, TokenKey)),
                                      FetchFiltered(GetItem(s.store, TokenKey), s.statusFilter, s.searchTerm)]
    ensures !ok ==> t == Transition(s, [UpdateAgency(GetItem(s.store, TokenKey), id, action)])
  {
    var put := UpdateAgency(GetItem(s.store, TokenKey), id, action);
    if ok then
      var r := RefreshBoth(s);
      Transition(r.state, [put] + r.effects)
    else
      Transition(s, [put])
  }

  /** `handleLogout`: the token is removed and the page goes to sign-in. */
  function OnLogout(s: DashState): (t: Transition)
    ensures TokenKey !in t.state.store
    ensures forall k :: k in s.store && k != TokenKey ==> k in t.state.store && t.state.store[k] == s.store[k]
    ensures t.state == s.(store := RemoveItem(s.store, TokenKey))
    ensures t.effects == [NavigateTo(SignIn)]
  {
    Transition(s.(store := RemoveItem(s.store, TokenKey)), [NavigateTo(SignIn)])
  }

  /** Everything that can happen to the page. The search and filter setters
      and the refresh call are the ones handed to the agency section. */
  datatype Event =
    | Mount
    | AllFetched(all: Response<seq<Agency>>)
    | FilteredFetched(filtered: Response<seq<Agency>>)
    | SearchChanged(term: string)
    | StatusChanged(status: string)
    | RefreshRequested
    | Verify(id: string, verifyOk: bool)
    | Reject(id: string, rejectOk: bool)
    | Logout

  /** One event. The counts are only ever replaced by the counts of an
      unfiltered roster that arrived, never by anything derived from the
      filtered list, so a consistent page stays consistent. */
  function Next(s: DashState, e: Event): (t: Transition)
    ensures t.state.stats == s.stats || (e.AllFetched? && e.all.Ok? && t.state.stats == UpdateStats(e.all.body))
    ensures Consistent(s) ==> Consistent(t.state)
  {
    match e
    case Mount => OnMount(s)
    case AllFetched(res) => OnAllFetched(s, res)
    case FilteredFetched(res) => OnFilteredFetched(s, res)
    case SearchChanged(term) => Transition(s.(searchTerm := term), [])
    case StatusChanged(status) => Transition(s.(statusFilter := status), [])
    case RefreshRequested => FetchAgencies(s)
    case Verify(id, ok) => OnAction(s, id, "verify", ok)
    case Reject(id, ok) => OnAction(s, id, "reject", ok)
    case Logout => OnLogout(s)
  }

  /** The state after a sequence of events. */
  function Run(s: DashState, es: seq<Event>): DashState
    decreases |es|
  {
    if |es| == 0 then s else Run(Next(s, es[0]).state, es[1..])
  }

  /** In every state the page can reach, the counts agree with the
      unfiltered roster it holds. */
  lemma {:induction false} RunConsistent(s: DashState, es: seq<Event>)
    requires Consistent(s)
    ensures Consistent(Run(s, es))
    decreases |es|
  {
    if |es| > 0 {
      RunConsistent(Next(s, es[0]).state, es[1..]);
    }
  }

  /** Reachable states are consistent, starting from any storage. */
  lemma Reachable(store: Store, es: seq<Event>)
    ensures Consistent(Run(Init(store), es))
  {
    RunConsistent(Init(store), es);
  }

  /** A successful verify of agency `i`, followed by both refetches
      resolving with the server's updated roster, leaves the counts with one
      more verified and one fewer pending agency and shows the new list. */
  lemma VerifyThenRefetch(s: DashState, i: nat, shown: seq<Agency>)
    requires Consistent(s) && i < |s.allAgencies| && !s.allAgencies[i].isVerified
    ensures
      var roster := s.allAgencies[i := s.allAgencies[i].(isVerified := true)];
      var s1 := Next(s, Verify(s.allAgencies[i].id, true)).state;
      var s2 := Next(s1, AllFetched(Ok(roster))).state;
      var s3 := Next(s2, FilteredFetched(Ok(shown))).state;
      && s3.stats.total == s.stats.total
      && s3.stats.verified == s.stats.verified + 1
      && s3.stats.pending + 1 == s.stats.pending
      && s3.agencies == shown && !s3.loading
  {
    StatusChangeCounts(s.allAgencies, i, true);
  }
}

=== FILE: migrant_guard.dfy ===
/** The migrant access guard (`MigrantProtectedRoute`): a pure decision from
    the parsed `"user"` storage entry and the requested pathname to either
    rendering the wrapped page or redirecting. */
module MigrantGuard {
  import opened Wrappers
  import opened Navigation

  /** The cached profile snapshot stored under `"user"` at login. */
  datatype User = User(isMigrant: bool, agencyVerified: bool)

  /** Routes that need completed agency verification. */
  const ProtectedRoutes: seq<string> := ["/submit-complaint", "/user-complaints"]

  /** Routes open to migrants whose agency verification is still pending. */
  const MigrantOnlyRoutes: seq<string> := ["/select-agency"]

  /** Every target this guard can send a subject to. */
  const RedirectTargets: set<string> := {"/signin/migrant", "/home", "/select-agency"}

  /** The access policy, stated independently of the guard's order of checks:
      a signed-in non-migrant may open only the verification-intake page; a
      migrant may open anything except that page, and a fully protected route
      only once agency-verified. */
  predicate Admits(user: Option<User>, path: string)
  {
    match user
    case None => false
    case Some(u) =>
      if u.isMigrant then path != "/verify" && (path in ProtectedRoutes ==> u.agencyVerified)
      else path == "/verify"
  }

  /** The target the policy sends a refused subject to. */
  function RefusalTarget(user: Option<User>, path: string): string
  {
    match user
    case None => "/signin/migrant"
    case Some(u) =>
      if !u.isMigrant || path == "/verify" then "/home" else "/select-agency"
  }

  /** The guard, in the order the component checks things. */
  function Guard(user: Option<User>, path: string): (d: Decision)
    ensures d.Allow? <==> Admits(user, path)
    ensures d.Redirect? ==> d.target == RefusalTarget(user, path) && d.from == path
    ensures d.Redirect? ==> d.target in RedirectTargets
    ensures (d.Redirect? && d.notified) <==> (user.Some? && user.value.isMigrant && path == "/verify")
  {
    if user.None? then
      Redirect("/signin/migrant", path, false)
    else
      var u := user.value;
      var isProtectedRoute := path in ProtectedRoutes;
      var isMigrantOnlyRoute := path in MigrantOnlyRoutes;
      if !u.isMigrant then
        if path == "/verify" then Allow else Redirect("/home", path, false)
      else if u.isMigrant && path == "/verify" then
        Redirect("/home", path, true)
      else if !u.agencyVerified && isProtectedRoute then
        Redirect("/select-agency", path, false)
      else if !u.agencyVerified && isMigrantOnlyRoute then
        Allow
      else
        Allow
  }

  /** With no stored user every path goes to the migrant sign-in page,
      carrying the requested path for the return trip. */
  lemma NoUserGoesToSignIn(path: string)
    ensures Guard(None, path) == Redirect("/signin/migrant", path, false)
  {
  }

  /** A signed-in non-migrant is let through on `/verify` only; everywhere
      else the guard sends them home. */
  lemma NonMigrantOnlyOnVerify(u: User, path: string)
    requires !u.isMigrant
    ensures Guard(Some(u), path) == if path == "/verify" then Allow else Redirect("/home", path, false)
  {
  }

  /** A migrant asking for `/verify` is notified and sent home, whatever the
      agency-verification flag says. */
  lemma MigrantOnVerifyGoesHome(u: User)
    requires u.isMigrant
    ensures Guard(Some(u), "/verify") == Redirect("/home", "/verify", true)
    ensures Guard(Some(u), "/verify") == Guard(Some(u.(agencyVerified := !u.agencyVerified)), "/verify")
  {
  }

  /** A migrant pending agency verification is sent to agency selection from
      a fully protected route and let onto agency selection itself. */
  lemma PendingMigrant(u: User, path: string)
    requires u.isMigrant && !u.agencyVerified
    ensures path in ProtectedRoutes ==> Guard(Some(u), path) == Redirect("/select-agency", path, false)
    ensures Guard(Some(u), "/select-agency") == Allow
  {
  }

  /** An agency-verified migrant is let through everywhere except `/verify`. */
  lemma VerifiedMigrant(u: User, path: string)
    requires u.isMigrant && u.agencyVerified
    ensures Guard(Some(u), path).Allow? <==> path != "/verify"
  {
  }

  /** Following a redirect to agency selection never bounces again: the same
      user is let onto `/select-agency`, so the guard has no redirect loop
      through that target. */
  lemma SelectAgencyTargetSettles(user: Option<User>, path: string)
    requires Guard(user, path).Redirect? && Guard(user, path).target == "/select-agency"
    ensures Guard(user, "/select-agency") == Allow
  {
  }

  /** On the paths the guard wraps, a redirect never points back at the
      requested path. */
  lemma RedirectLeavesGuardedPath(user: Option<User>, path: string)
    requires path in ["/select-agency", "/verify", "/submit-complaint", "/user-complaints"]
    requires Guard(user, path).Redirect?
    ensures Guard(user, path).target != path
  {
  }

  /** The guard compares the pathname exactly, so a spelling of a protected
      path that differs only by a trailing slash or by letter case is not
      recognised as protected and a pending migrant is let through. */
  lemma PathVariantsNotProtected(u: User)
    requires u.isMigrant && !u.agencyVerified
    ensures Guard(Some(u), "/submit-complaint/") == Allow
    ensures Guard(Some(u), "/Submit-Complaint") == Allow
  {
  }
}

=== FILE: navigation.dfy ===
/** What a route guard decides for one navigation. */
module Navigation {

  /** `Allow` renders the wrapped page (the guard returns its children);
      `Redirect` is a `<Navigate to=target state={{from: location}} replace />`.
      `from` is the pathname of the location the subject asked for, kept for
      the post-login return; `notified` records that the subject was told
      something (the migrant guard's alert) before being sent away. */
  datatype Decision =
    | Allow
    | Redirect(target: string, from: string, notified: bool)
}

=== FILE: routes.dfy ===
/** The composition root's route table: exact paths mapped to pages, some
    wrapped in the migrant guard, with a catch-all to the not-found page. */
module Routes {
  import opened Wrappers
  import opened Navigation
  import MigrantGuard
  import DepartmentGuard

  datatype Page =
    | LandingPage | Home | SelectAgency | Verification | SubmitComplaint | UserComplaints
    | Login | AgencyLogin | DepartmentLogin | GovLogin
    | Signup | AgencySignup | DepartmentSignup
    | AgencyDashboard | DepartmentDashboard | GovDashboard
    | NotFound

  /** One `<Route>`: its path, its page, and whether the page is wrapped in
      `MigrantProtectedRoute`. */
  datatype Route = Route(path: string, page: Page, guarded: bool)

  /** The declared routes, in source order; `path="*"` is not an entry but
      the fallback of `Resolve`. */
  const Table: seq<Route> := [
    Route("/", LandingPage, false),
    Route("/home", Home, false),
    Route("/select-agency", SelectAgency, true),
    Route("/verify", Verification, true),
    Route("/submit-complaint", SubmitComplaint, true),
    Route("/user-complaints", UserComplaints, true),
    Route("/signin/migrant", Login, false),
    Route("/signin/agency", AgencyLogin, false),
    Route("/signin/department", DepartmentLogin, false),
    Route("/signin/government", GovLogin, false),
    Route("/signup/migrant", Signup, false),
    Route("/signup/agency", AgencySignup, false),
    Route("/signup/department", DepartmentSignup, false),
    Route("/agency-dashboard", AgencyDashboard, false),
    Route("/department-dashboard", DepartmentDashboard, false),
    Route("/government-dashboard", GovDashboard, false)
  ]

  /** The catch-all `<Route path="*">`. */
  const Fallback := Route("*", NotFound, false)

  function Paths(t: seq<Route>): (ps: set<string>)
    ensures forall i :: 0 <= i < |t| ==> t[i].path in ps
    ensures forall p :: p in ps ==> exists i :: 0 <= i < |t| && t[i].path == p
  {
    set i | 0 <= i < |t| :: t[i].path
  }

  /** The paths the table declares. */
  const Declared: set<string> := Paths(Table)

  /** The first entry of `t` whose path is exactly `path`. */
  function Lookup(t: seq<Route>, path: string): (r: Option<Route>)
    ensures r.Some? ==> r.value in t && r.value.path == path
    ensures r.None? <==> path !in Paths(t)
  {
    if |t| == 0 then None
    else if t[0].path == path then Some(t[0])
    else
      var rest := Lookup(t[1..], path);
      assert Paths(t) == {t[0].path} + Paths(t[1..]) by {
        forall p | p in Paths(t) ensures p in {t[0].path} + Paths(t[1..]) {
          var i :| 0 <= i < |t| && t[i].path == p;
          if i > 0 { assert t[1..][i - 1].path == p; }
        }
      }
      rest
  }

  /** The route that renders for `path` under table `t`: the declared one, or
      the fallback. */
  function ResolveIn(t: seq<Route>, path: string): (r: Route)
    ensures path in Paths(t) ==> r in t && r.path == path
    ensures path !in Paths(t) ==> r == Fallback
  {
    match Lookup(t, path)
    case Some(r) => r
    case None => Fallback
  }

  /** No declared route renders the not-found page. */
  lemma NoDeclaredNotFound()
    ensures forall i :: 0 <= i < |Table| ==> Table[i].page != NotFound
  {
  }

  /** The route that renders for `path` in the composition root. */
  function Resolve(path: string): (r: Route)
    ensures r.page == NotFound <==> path !in Declared
    ensures path in Declared ==> r in Table && r.path == path
    ensures path !in Declared ==> r == Fallback
  {
    NoDeclaredNotFound();
    ResolveIn(Table, path)
  }

  /** No two declared routes share a path, so the source order of the table
      never decides which page renders. */
  lemma PathsDistinct()
    ensures Distinct(Table)
  {
  }

  predicate Distinct(t: seq<Route>)
  {
    forall i, j :: 0 <= i < j < |t| ==> t[i].path != t[j].path
  }

  /** In a table without repeated paths, looking up an entry's path finds
      that very entry. */
  lemma {:induction false} LookupFinds(t: seq<Route>, i: nat)
    requires Distinct(t) && i < |t|
    ensures Lookup(t, t[i].path) == Some(t[i])
  {
    if i > 0 {
      assert t[0].path != t[i].path;
      assert t[1..][i - 1] == t[i];
      LookupFinds(t[1..], i - 1);
    }
  }

  /** Every declared path renders its own entry. */
  lemma ResolveEntry(i: nat)
    requires i < |Table|
    ensures Resolve(Table[i].path) == Table[i]
  {
    PathsDistinct();
    LookupFinds(Table, i);
  }

  /** The paths wrapped by `MigrantProtectedRoute`. */
  const GuardedPaths: set<string> := {"/select-agency", "/verify", "/submit-complaint", "/user-complaints"}

  lemma GuardedEntries()
    ensures forall i :: 0 <= i < |Table| && Table[i].guarded ==> Table[i].path in GuardedPaths
  {
  }

  /** Exactly the four migrant pages sit behind the migrant guard. */
  lemma GuardedRoutes(path: string)
    ensures Resolve(path).guarded <==> path in GuardedPaths
  {
    if path in GuardedPaths {
      ListedAreGuarded(path);
    } else {
      GuardedAreListed(path);
    }
  }

  lemma ListedAreGuarded(path: string)
    requires path in GuardedPaths
    ensures Resolve(path).guarded
  {
    var k := if path == "/select-agency" then 2
      else if path == "/verify" then 3
      else if path == "/submit-complaint" then 4
      else 5;
    assert Table[k].path == path;
    ResolveEntry(k);
  }

  lemma GuardedAreListed(path: string)
    ensures Resolve(path).guarded ==> path in GuardedPaths
  {
    var r := Resolve(path);
    if r.guarded {
      GuardedEntries();
      var i :| 0 <= i < |Table| && Table[i] == r;
    }
  }

  /** The three dashboards are reachable without any guard. */
  lemma DashboardsUnguarded()
    ensures Resolve("/agency-dashboard") == Route("/agency-dashboard", AgencyDashboard, false)
    ensures Resolve("/department-dashboard") == Route("/department-dashboard", DepartmentDashboard, false)
    ensures Resolve("/government-dashboard") == Route("/government-dashboard", GovDashboard, false)
  {
    ResolveEntry(13);
    ResolveEntry(14);
    ResolveEntry(15);
  }

  /** Resolving a literal path that the table declares at position `k`. */
  lemma ResolveAt(k: nat, path: string)
    requires k < |Table| && Table[k].path == path
    ensures Resolve(path) == Table[k]
  {
    ResolveEntry(k);
  }

  /** Every redirect target of either guard is a declared route. */
  lemma TargetsDeclared()
    ensures MigrantGuard.RedirectTargets <= Declared
    ensures forall store, p :: DepartmentGuard.Guard(store, p).Redirect? ==>
      DepartmentGuard.Guard(store, p).target in Declared
  {
    forall t | t in MigrantGuard.RedirectTargets
      ensures t in Declared
    {
      var k := if t == "/home" then 1 else if t == "/select-agency" then 2 else 6;
      ResolveAt(k, t);
    }
    ResolveAt(8, "/signin/department");
  }

  /** Following a redirect to `/home` or to either sign-in page never
      re-enters a guard. */
  lemma TargetsUnguarded()
    ensures forall t :: t in UnguardedTargets ==> !Resolve(t).guarded
  {
    forall t | t in UnguardedTargets
      ensures !Resolve(t).guarded
    {
      var k := if t == "/home" then 1 else if t == "/signin/migrant" then 6 else 8;
      ResolveAt(k, t);
    }
  }

  const UnguardedTargets: set<string> := {"/home", "/signin/migrant", "/signin/department"}

  /** What a navigation shows: the page, or a bounce to another path. */
  datatype Visit = Render(page: Page) | Bounce(target: string, from: string)

  /** Resolve the path, and consult the migrant guard when the route is
      wrapped in it. */
  function VisitPath(user: Option<MigrantGuard.User>, path: string): (v: Visit)
    ensures v.Bounce? ==> Resolve(path).guarded && v.from == path
    ensures v.Render? ==> v.page == Resolve(path).page
    ensures Resolve(path).guarded ==> (v.Render? <==> MigrantGuard.Admits(user, path))
    ensures !Resolve(path).guarded ==> v.Render?
    ensures v.Bounce? ==> v.target == MigrantGuard.RefusalTarget(user, path)
  {
    var r := Resolve(path);
    if r.guarded then
      match MigrantGuard.Guard(user, path)
      case Allow => Render(r.page)
      case Redirect(target, from, _) => Bounce(target, from)
    else
      Render(r.page)
  }

  /** A bounce happens only when a guarded path meets a refusing guard; from
      there the target renders, in one hop, a declared page for the same
      user and differs from the requested path: the guards cannot loop. */
  lemma NoRedirectLoop(user: Option<MigrantGuard.User>, path: string)
    requires path in GuardedPaths && MigrantGuard.Guard(user, path).Redirect?
    ensures VisitPath(user, path).Bounce?
    ensures VisitPath(user, VisitPath(user, path).target).Render?
    ensures VisitPath(user, VisitPath(user, path).target).page != NotFound
    ensures VisitPath(user, path).target != path
  {
    GuardedRoutes(path);
    var d := MigrantGuard.Guard(user, path);
    assert VisitPath(user, path) == Bounce(d.target, d.from);
    if d.target == "/select-agency" {
      MigrantGuard.SelectAgencyTargetSettles(user, path);
    }
    TargetRenders(user, d.target);
  }

  /** At the route level, a migrant whose agency verification is pending
      never sees the complaint pages: both bounce to agency selection. */
  lemma PendingMigrantNeverComplains(u: MigrantGuard.User, path: string)
    requires u.isMigrant && !u.agencyVerified
    requires path == "/submit-complaint" || path == "/user-complaints"
    ensures VisitPath(Some(u), path) == Bounce("/select-agency", path)
  {
    var k := if path == "/submit-complaint" then 4 else 5;
    ResolveAt(k, path);
    assert path in MigrantGuard.ProtectedRoutes;
    MigrantGuard.PendingMigrant(u, path);
  }

  /** Each migrant-guard target renders a real page, provided agency
      selection admits the user when it is the target. */
  lemma TargetRenders(user: Option<MigrantGuard.User>, target: string)
    requires target in MigrantGuard.RedirectTargets
    requires target == "/select-agency" ==> MigrantGuard.Guard(user, target) == Allow
    ensures VisitPath(user, target).Render? && VisitPath(user, target).page != NotFound
  {
    if target == "/home" {
      ResolveAt(1, "/home");
    } else if target == "/signin/migrant" {
      ResolveAt(6, "/signin/migrant");
    } else {
      ResolveAt(2, "/select-agency");
    }
  }
}

=== FILE: select_agency.dfy ===
/** The agency-selection page: a migrant browses the agency list, expands at
    most one card at a time, picks an agency, and confirms or cancels the
    verification request in a dialog. Requests are effects; their outcomes
    come back as events. */
module SelectAgency {
  import opened Wrappers
  import opened Storage

  /** An agency card, reduced to what the page decides on. */
  datatype Agency = Agency(id: string, name: string)

  /** The signed-in user's profile from `/api/auth/user`; only displayed. */
  datatype Profile = Profile(id: string)

  /** The page's state slots, plus the localStorage it reads. */
  datatype PageState = PageState(
    store: Store,
    agencies: seq<Agency>,
    isLoading: bool,
    error: string,
    selected: Option<Agency>,
    confirmOpen: bool,
    user: Option<Profile>,
    expanded: Option<string>)

  /** What the page asks of the outside world. */
  datatype Effect =
    | NavigateTo(path: string, message: Option<string>)
    | FetchUser(token: string)
    | FetchAgencies
    | RequestVerification(userId: Option<string>, agencyId: string)

  datatype Transition = Transition(state: PageState, effects: seq<Effect>)

  const LoadError := "Failed to load agencies. Please try again."
  const SendError := "Failed to send request. Please try again."
  const SignIn := "/signin/migrant"

  /** The banner shown after a successful request. */
  function SuccessMessage(a: Agency): string
  {
    "Verification request sent to " + a.name + "!"
  }

  /** The state on first render. */
  function Init(store: Store): (s: PageState)
    ensures s.isLoading && s.error == "" && s.agencies == []
    ensures s.selected.None? && !s.confirmOpen && s.expanded.None? && s.user.None?
    ensures s.store == store
  {
    PageState(store, [], true, "", None, false, None, None)
  }

  /** `toggleAgencyExpansion`'s new slot value: clicking the expanded card
      collapses it, clicking any other card expands that one instead. */
  function Toggle(expanded: Option<string>, id: string): (r: Option<string>)
    ensures r.None? <==> expanded == Some(id)
    ensures r.Some? ==> r.value == id
  {
    if expanded == Some(id) then None else Some(id)
  }

  /** Clicking the same card twice restores the slot when nothing was open
      or when that card was the open one. */
  lemma ToggleTwice(id: string)
    ensures Toggle(Toggle(None, id), id) == None
    ensures Toggle(Toggle(Some(id), id), id) == Some(id)
  {
  }

  /** Clicking a card twice while a different card was open does not restore
      the slot: the first click replaces the open card, the second closes it. */
  lemma ToggleTwiceFromOther(other: string, id: string)
    requires other != id
    ensures Toggle(Toggle(Some(other), id), id) == None
  {
  }

  /** A card shows its details (and the up chevron) when its id is in the slot. */
  predicate IsExpanded(s: PageState, a: Agency)
  {
    s.expanded == Some(a.id)
  }

  predicate DistinctIds(xs: seq<Agency>)
  {
    forall i, j :: 0 <= i < j < |xs| ==> xs[i].id != xs[j].id
  }

  /** With distinct agency ids, at most one card is expanded at a time, since
      there is a single slot. */
  lemma AtMostOneExpanded(s: PageState, i: nat, j: nat)
    requires DistinctIds(s.agencies) && i < |s.agencies| && j < |s.agencies|
    requires IsExpanded(s, s.agencies[i]) && IsExpanded(s, s.agencies[j])
    ensures i == j
  {
  }

  /** The mount effects: the user fetch (or, without a truthy `token`, the
      sign-in page), then the agency fetch with the spinner on. */
  function OnMount(s: PageState): (t: Transition)
    ensures t.state == s.(isLoading := true)
    ensures !Truthy(GetItem(s.store, "token")) ==> t.effects == [NavigateTo(SignIn, None), FetchAgencies]
    ensures Truthy(GetItem(s.store, "token")) ==>
      t.effects == [FetchUser(s.store["token"]), FetchAgencies]
  {
    var token := GetItem(s.store, "token");
    var userEffect := if !Truthy(token) then NavigateTo(SignIn, None) else FetchUser(token.value);
    Transition(s.(isLoading := true), [userEffect, FetchAgencies])
  }

  /** The user fetch's outcome: the profile is kept, or a failure sends the
      subject to sign-in. */
  function OnUserFetched(s: PageState, res: Response<Profile>): (t: Transition)
    ensures res.Ok? ==> t.state == s.(user := Some(res.body)) && t.effects == []
    ensures res.Failed? ==> t.state == s && t.effects == [NavigateTo(SignIn, None)]
  {
    match res
    case Ok(p) => Transition(s.(user := Some(p)), [])
    case Failed => Transition(s, [NavigateTo(SignIn, None)])
  }

  /** The agency fetch's outcome: the spinner goes off either way; a failure
      puts up the retry message and keeps the old list. */
  function OnAgenciesFetched(s: PageState, res: Response<seq<Agency>>): (t: Transition)
    ensures !t.state.isLoading && t.effects == []
    ensures res.Ok? ==> t.state == s.(agencies := res.body, isLoading := false)
    ensures res.Failed? ==> t.state == s.(error := LoadError, isLoading := false)
  {
    match res
    case Ok(list) => Transition(s.(agencies := list, isLoading := false), [])
    case Failed => Transition(s.(error := LoadError, isLoading := false), [])
  }

  /** `handleSelect`: remember the agency and open the dialog. */
  function OnSelect(s: PageState, a: Agency): (t: PageState)
    ensures t.selected == Some(a) && t.confirmOpen
    ensures t.agencies == s.agencies && t.expanded == s.expanded && t.error == s.error
    ensures t.isLoading == s.isLoading && t.user == s.user && t.store == s.store
  {
    s.(selected := Some(a), confirmOpen := true)
  }

  /** The dialog's close and cancel buttons: only the dialog flag changes. */
  function OnCancel(s: PageState): (t: PageState)
    ensures !t.confirmOpen && t.selected == s.selected
    ensures t == s.(confirmOpen := false)
  {
    s.(confirmOpen := false)
  }

  /** `confirmSelection`: the request names the stored `userId` and the
      selected agency; success closes the dialog and goes home with a message
      naming the agency, failure sets the error and leaves the dialog open.
      With nothing selected, reading the agency's id throws inside the same
      `try`, so the page ends up in the failure branch without a request. */
  function OnConfirm(s: PageState, ok: bool): (t: Transition)
    ensures s.selected.None? ==> t.state == s.(error := SendError) && t.effects == []
    ensures s.selected.Some? ==>
      |t.effects| >= 1 && t.effects[0] == RequestVerification(GetItem(s.store, "userId"), s.selected.value.id)
    ensures s.selected.Some? && ok ==>
      !t.state.confirmOpen && t.effects[1..] == [NavigateTo("/home", Some(SuccessMessage(s.selected.value)))]
    ensures s.selected.Some? && ok ==> t.state == s.(confirmOpen := false)
    ensures !(s.selected.Some? && ok) ==>
      t.state == s.(error := SendError)
      && forall k :: 0 <= k < |t.effects| ==> !t.effects[k].NavigateTo?
  {
    match s.selected
    case None => Transition(s.(error := SendError), [])
    case Some(a) =>
      var request := RequestVerification(GetItem(s.store, "userId"), a.id);
      if ok then
        Transition(s.(confirmOpen := false), [request, NavigateTo("/home", Some(SuccessMessage(a)))])
      else
        Transition(s.(error := SendError), [request])
  }

  /** The three ways the list area can look. */
  datatype Pane = Spinner | AgencyList | EmptyState

  /** The list area: spinner while loading, else the cards, else the
      "no agencies" notice. */
  function ViewOf(s: PageState): (p: Pane)
    ensures p == Spinner <==> s.isLoading
    ensures p == AgencyList <==> !s.isLoading && |s.agencies| > 0
    ensures p == EmptyState <==> !s.isLoading && s.agencies == []
  {
    if s.isLoading then Spinner
    else if |s.agencies| > 0 then AgencyList
    else EmptyState
  }

  /** The confirmation dialog is on screen. */
  predicate DialogShown(s: PageState)
  {
    s.confirmOpen && s.selected.Some?
  }

  /** The red error banner is on screen. */
  predicate ErrorShown(s: PageState)
  {
    s.error != ""
  }

  datatype Event =
    | Mount
    | UserFetched(profile: Response<Profile>)
    | AgenciesFetched(list: Response<seq<Agency>>)
    | ToggleCard(id: string)
    | Select(agency: Agency)
    | Cancel
    | Confirm(requestOk: bool)

  /** The page's invariant: the dialog flag is only ever up with an agency
      selected, so an open dialog is always the one shown on screen. */
  predicate WellFormed(s: PageState)
  {
    s.confirmOpen ==> s.selected.Some?
  }

  /** One event. */
  function Next(s: PageState, e: Event): (t: Transition)
    ensures WellFormed(s) ==> WellFormed(t.state)
    ensures e.ToggleCard? ==> t.state == s.(expanded := Toggle(s.expanded, e.id)) && t.effects == []
    ensures !e.Select? ==> t.state.selected == s.selected
  {
    match e
    case Mount => OnMount(s)
    case UserFetched(res) => OnUserFetched(s, res)
    case AgenciesFetched(res) => OnAgenciesFetched(s, res)
    case ToggleCard(id) => Transition(s.(expanded := Toggle(s.expanded, id)), [])
    case Select(a) => Transition(OnSelect(s, a), [])
    case Cancel => Transition(OnCancel(s), [])
    case Confirm(ok) => OnConfirm(s, ok)
  }

  /** The state after a sequence of events. */
  function Run(s: PageState, es: seq<Event>): PageState
    decreases |es|
  {
    if |es| == 0 then s else Run(Next(s, es[0]).state, es[1..])
  }

  lemma {:induction false} RunWellFormed(s: PageState, es: seq<Event>)
    requires WellFormed(s)
    ensures WellFormed(Run(s, es))
    decreases |es|
  {
    if |es| > 0 {
      RunWellFormed(Next(s, es[0]).state, es[1..]);
    }
  }

  /** In every reachable state an open dialog is on screen, and confirming
      always sends a request for the selected agency: the null-agency branch
      of `confirmSelection` cannot be reached through the page. */
  lemma ReachableDialog(store: Store, es: seq<Event>, ok: bool)
    ensures var s := Run(Init(store), es);
            && (s.confirmOpen <==> DialogShown(s))
            && (s.confirmOpen ==> OnConfirm(s, ok).effects[0].RequestVerification?)
  {
    RunWellFormed(Init(store), es);
  }

  /** A failed agency load leaves a visible error and no spinner, whether the
      list is empty or still holds earlier cards. */
  lemma FailedLoadIsVisible(s: PageState)
    ensures var t := OnAgenciesFetched(s, Failed).state;
            ErrorShown(t) && ViewOf(t) != Spinner
  {
  }
}

=== FILE: storage.dfy ===
/** The browser's localStorage as the pages see it: a finite map from keys to
    string values, read with `getItem` (which yields `null` for a missing key)
    and judged by JavaScript truthiness. */
module Storage {
  import opened Wrappers

  type Store = map<string, string>

  /** `localStorage.getItem(key)`: the stored string, or `null`. */
  function GetItem(store: Store, key: string): (v: Option<string>)
    ensures v.Some? <==> key in store
    ensures v.Some? ==> v.value == store[key]
  {
    if key in store then Some(store[key]) else None
  }

  /** JavaScript truthiness of a `getItem` result: `null` and the empty
      string are falsy, every other string is truthy. */
  predicate Truthy(v: Option<string>)
  {
    v.Some? && v.value != ""
  }

  /** A stored key is truthy exactly when it is present with a non-empty
      value; so a missing key and a key holding `""` are refused alike. */
  lemma TruthyEntry(store: Store, key: string)
    ensures Truthy(GetItem(store, key)) <==> key in store && store[key] != ""
    ensures !Truthy(GetItem(store - {key}, key))
  {
  }

  /** `localStorage.removeItem(key)`: drops the key, keeps every other entry. */
  function RemoveItem(store: Store, key: string): (r: Store)
    ensures key !in r
    ensures forall k :: k in store && k != key ==> k in r && r[k] == store[k]
    ensures forall k :: k in r ==> k in store
  {
    store - {key}
  }
}

=== FILE: wrappers.dfy ===
/** Small failure-carrying datatypes shared by the whole model. */
module Wrappers {

  /** A value that may be absent: JavaScript's `null` for a missing storage
      entry or an unset piece of page state. */
  datatype Option<+T> = None | Some(value: T)

  /** The outcome of one HTTP request, as far as the front-end can tell:
      the response body on success, or a failure (network error or a non-2xx
      status, both of which axios throws). */
  datatype Response<+T> = Ok(body: T) | Failed
}
